=== FILE: README.md ===
# Library catalog resolvers, modelled in Dafny

This project models the resolver layer of a small GraphQL library backend.
The resolvers work on an in-memory catalog of authors and books. Each author
has a name, an id and an optional birth year (`born`). Each book has a title,
a publication year, an author name, a list of genres and an id. A book refers
to its author by name only.

The queries are `bookCount`, `authorCount`, `allBooks(author, genre)` and
`allAuthors`. The mutations are `addBook`, which creates the author on first
mention, and `editAuthor`, which sets `born` or returns `null`.

The catalog is the immutable datatype `Library.Catalog`. It holds the two
sequences plus an id counter. Each mutation is a function from a catalog to
`Step(after, result)`. This mirrors the source, which replaces whole arrays
with `concat` and `map`. The source never declares the initial `authors` and
`books`, so every operation accepts an arbitrary catalog. The invariants are
collected in the predicate `Library.WellFormed`:

- author names are unique;
- every book's author name belongs to some author;
- every id is below the counter and used by only one record.

Lemmas prove that both mutations preserve `WellFormed`.

Modules:

- `Library` (library.dfy): the data model, the author lookup (`find`), the per-author book count (`reduce`) and the invariants.
- `Queries` (queries.dfy): `bookCount`, `authorCount`, `allBooks`, `allAuthors`.
- `Mutations` (mutations.dfy): `addBook`, `editAuthor`.
- `Sessions` (sessions.dfy): runs of `addBook`, and a worked session that starts from an empty catalog.

Points where the model follows JavaScript's exact semantics:

- The early return of `allBooks` tests truthiness, so a missing argument and the empty string are treated alike there. The filter itself does not: an empty `author` next to a genre still keeps the books whose author is `""`, and a missing one does not (`Queries.AllBooksEmptyAuthor`).
- The genre test passes only for a non-empty genre. `find` returns the matching string, and `""` is falsy.
- The author and genre tests are joined by OR, as written.
- `editAuthor` takes the first author with the name, makes a copy of it with the new `born`, and writes that same copy over every position holding the name. Each of those positions then carries the first author's id. When names are unique there is one such position, and `Mutations.EditAuthorChangesOneField` proves that only its `born` changes.
- `addBook` never fails.
- `authorCount` is the length of the author sequence. It equals the number of distinct names exactly when no name is shared (`Queries.AuthorCountIsNameCount` proves both directions).

## Model

| member | source | states |
|---|---|---|
| Library.FindAuthor | index.js:70 | returns the position of the first author with the name, or `None` exactly when no author has it |
| Library.CountBy | index.js:50-53 | the reduced count equals the number of book positions whose author is exactly the name, and is at most the number of books |
| Queries.AuthorCountIsNameCount | index.js:38 | `authorCount` equals the number of distinct author names if and only if no two authors share a name |
| Queries.Filter | index.js:42-45 | the filtered books are an order-preserving subsequence of `books`; each kept book matches the author or lists the non-empty genre; every matching book is kept; there is one entry per matching position |
| Queries.AllBooks | index.js:39-47 | with both arguments falsy it returns all books unchanged; otherwise it returns the matching books, in order; the result is never longer than `books` |
| Queries.AllBooksByAuthor | index.js:40-45 | with only a non-empty author, every returned book is by that author, and there are as many as `allAuthors` counts for the name |
| Queries.AllBooksEmptyAuthor | index.js:40-44 | an empty `author` alone returns every book; next to a non-empty genre it keeps every book whose author is `""`; a missing author with that genre keeps only books that list the genre |
| Queries.AllBooksByGenre | index.js:40-45 | with only a non-empty genre, every returned book lists it and every book that lists it is returned |
| Queries.Views | index.js:49-55 | the map keeps length and order; row i carries author i's name, id and born, and a count of the books with exactly that author name |
| Queries.AllAuthors | index.js:48-57 | same length and order as `authors`; each row is its author's fields plus the number of books whose author is exactly that name |
| Queries.AllAuthorsTotal | index.js:48-57 | when names are unique and every book's author name belongs to some author, the `bookCount`s of all rows add up to `bookCount`, so each book is counted under exactly one author |
| Mutations.AddBook | index.js:60-68 | appends exactly one book, leaves earlier books as they were, and returns the appended book; that book carries the given title, author, year and genres and an id not below the counter; a new author with another such id and no `born` is appended exactly when no author has the name; otherwise `authors` is unchanged; whenever `IdsIssued(c)` holds, the book's id and the new author's id are used by no existing author or book |
| Mutations.AddBookPreservesReferences | index.js:61-66 | with no assumption about ids, `addBook` keeps author names unique and every book's author name belonging to some author |
| Mutations.AddBookPreservesWellFormed | index.js:61-66 | in a well-formed catalog, `addBook` keeps names unique, every book's author known and ids unique and issued |
| Mutations.AddBookAllAuthors | index.js:60-66 | for any catalog, after `addBook` each existing author's `bookCount` grows by one exactly when it is the given author, and nothing else in that row changes; a newly created author is listed last with the given name and no `born` |
| Mutations.AddBookNewAuthorCount | index.js:50-66 | when every book's author name belongs to some author, an author that `addBook` creates is credited with exactly one book |
| Mutations.EditAuthor | index.js:69-76 | returns `null` and changes nothing exactly when no author has the name; otherwise returns the first author with that name, with `born` set; authors with other names, the length, the books and the counter are unchanged |
| Mutations.EditAuthorChangesOneField | index.js:73-75 | with unique names, the only change is the `born` field of the named author; its id, name and position stay |
| Mutations.EditAuthorPreservesWellFormed | index.js:73-74 | `editAuthor` keeps a well-formed catalog well-formed |
| Mutations.EditAuthorLastWins | index.js:69-76 | a second `editAuthor` of the same name overwrites the first, with the same result as the second edit alone |
| Mutations.EditAuthorKeepsCounts | index.js:74 | for any catalog, `editAuthor` leaves `allAuthors` the same length, and every row keeps its name and `bookCount` |
| Mutations.EditAuthorKeepsIds | index.js:73-74 | with unique author names, `editAuthor` keeps every author's id |
| Library.FindAuthorFirst | index.js:70 | the lookup picks the first position that holds the name |
| Sessions.AddBooksBookCount | index.js:65-66 | after any run of `addBook` calls, `bookCount` has grown by the number of calls, and the earlier books are a prefix of the result |
| Sessions.AddBooksWellFormed | index.js:61-66 | any run of `addBook` keeps a well-formed catalog well-formed |
| Sessions.AddBookNames | index.js:61-64 | one `addBook` adds its author's name to the set of names and no other name |
| Sessions.AddBooksNames | index.js:61-64 | after a run of `addBook` the author names are the old names plus every name the calls mention |
| Sessions.AuthorCountFromEmpty | index.js:37-38 | starting empty, `authorCount` is the number of distinct author names passed, and `bookCount` is the number of calls |
| Sessions.AddBookAuthorCount | index.js:61-66 | one `addBook` raises `authorCount` by one for an unknown name, leaves it unchanged for a known one, and raises `bookCount` by one |
| Sessions.RobertMartinAdds | index.js:60-68 | starting empty, "Clean Code" by Robert Martin creates the author (id 0) and the book (id 1); "Agile Principles" by the same author appends only the book (id 2) |
| Sessions.RobertMartinCounts | index.js:37-57 | with those two books there is one author and two books, and `allAuthors` reports Robert Martin with `bookCount` 2 and no `born` |
| Sessions.RobertMartinEdit | index.js:69-76 | `editAuthor("Robert Martin", 1952)` returns the author with `born` 1952 and leaves the books alone |
| Sessions.RobertMartinGenreFilter | index.js:39-47 | `allBooks(genre: "agile")` returns exactly "Agile Principles" |
| Sessions.RobertMartinAuthorFilter | index.js:39-47 | `allBooks(author: "Robert Martin")` returns both books in insertion order |

## Left out

- The Apollo server setup, the schema text and `server.listen` (index.js:1, 4-33, 80-87) are network and server plumbing around a foreign library.
- `uuid()` (index.js:2, 62, 65) is a foreign call. Ids are naturals from a counter in the catalog: each call takes the counter value and increments it. The uuid v1 format is not modelled. Ids are fresh while `IdsIssued` holds; `WellFormed` includes it and both mutations preserve it. On other catalogs the counter can hand out an id already in use.
- Schema-level type enforcement is not modelled. This covers non-null arguments and the 32-bit range of GraphQL `Int` for `published` and `setBornTo`. Years are unbounded integers, and inputs are assumed well-typed.
- `Book.author` is declared as an `Author` object type, but no resolver for it exists. Only the stored author-name string is modelled.
- The author that `editAuthor` returns has no `bookCount` field, so the GraphQL layer reports that field as `null`. The model returns an `Author` record, which has no such field.
- An unfiltered `allBooks` returns the stored array itself, an alias. The model works on values, so aliasing does not arise.
- Concurrency is not modelled. Each resolver runs to completion before the next one starts, so every operation is atomic.
- `Queries.BookCount` and `Queries.AuthorCount` carry no contract of their own, since each is a sequence length. What `bookCount` (index.js:37) reports is stated by the rows for `Sessions.AddBooksBookCount`, `Sessions.AddBookAuthorCount` and `Queries.AllAuthorsTotal`. What `authorCount` (index.js:38) reports is stated by the rows for `Queries.AuthorCountIsNameCount`, `Sessions.AddBookAuthorCount` and `Sessions.AuthorCountFromEmpty`.

=== FILE: library.dfy ===
/**
 The in-memory catalog behind the library GraphQL resolvers: authors and
 books, the author lookup used by every mutation, the per-author book count,
 and the well-formedness the mutations keep.
 */
module Library {

  /** An optional value: a GraphQL argument that may be left out, or the `null` a resolver returns. */
  datatype Option<+T> = None | Some(value: T)

  /** Identifiers. `addBook` draws them from `uuid()`; here every call
      takes the catalog's next counter value. While every id in use is below
      the counter (`IdsIssued`), the value handed out is unused. */
  type Id = nat

  /** An author: `born` is absent until `editAuthor` sets it. */
  datatype Author = Author(name: string, id: Id, born: Option<int>)

  /** A book refers to its author by name, not by id. */
  datatype Book = Book(title: string, published: int, author: string, genres: seq<string>, id: Id)

  /** The arguments of the `addBook` mutation: everything of a book but its id. */
  datatype BookArgs = BookArgs(title: string, author: string, published: int, genres: seq<string>)

  /** Both collections, in insertion order, and the next identifier to hand out. */
  datatype Catalog = Catalog(authors: seq<Author>, books: seq<Book>, nextId: Id)

  const Empty: Catalog := Catalog([], [], 0)

  /** Some author is called `name`. */
  predicate NamedIn(authors: seq<Author>, name: string)
  {
    exists j :: 0 <= j < |authors| && authors[j].name == name
  }

  /** The position of the first author called `name`, as `authors.find(a => a.name === name)`
      scans for it; `None` when there is none. */
  function FindAuthor(authors: seq<Author>, name: string): (r: Option<nat>)
    ensures r.Some? ==> r.value < |authors| && authors[r.value].name == name
    ensures r.Some? ==> forall j :: 0 <= j < r.value ==> authors[j].name != name
    ensures r.None? <==> !NamedIn(authors, name)
    decreases |authors|
  {
    if |authors| == 0 then None
    else if authors[0].name == name then Some(0)
    else match FindAuthor(authors[1..], name)
      case None => None
      case Some(k) => Some(k + 1)
  }

  /** `FindAuthor` returns the first position holding the name. */
  lemma FindAuthorFirst(authors: seq<Author>, name: string, i: nat)
    requires i < |authors| && authors[i].name == name
    requires forall j :: 0 <= j < i ==> authors[j].name != name
    ensures FindAuthor(authors, name) == Some(i)
  {
  }

  /** The positions of the books written by `name`. */
  function BooksBy(books: seq<Book>, name: string): set<nat>
  {
    set i: nat | i < |books| && books[i].author == name
  }

  /** `BooksBy` grows by the new position exactly when an appended book is by `name`. */
  lemma BooksBySnoc(books: seq<Book>, b: Book, name: string)
    ensures BooksBy(books + [b], name) == BooksBy(books, name) + (if b.author == name then {|books|} else {})
    ensures |BooksBy(books + [b], name)| == |BooksBy(books, name)| + (if b.author == name then 1 else 0)
  {
  }

  /** The number of books whose author is exactly `name`, folded left to right
      as the `reduce` in `allAuthors` does. */
  function CountBy(books: seq<Book>, name: string): (n: nat)
    ensures n == |BooksBy(books, name)|
    ensures n <= |books|
    decreases |books|
  {
    if |books| == 0 then 0
    else
      var init := books[..|books| - 1];
      var last := books[|books| - 1];
      BooksBySnoc(init, last, name);
      assert init + [last] == books;
      CountBy(init, name) + (if last.author == name then 1 else 0)
  }

  /** After appending an author, a name is known iff it was known or is the new author's. */
  lemma NamedInSnoc(authors: seq<Author>, a: Author, name: string)
    ensures NamedIn(authors + [a], name) <==> NamedIn(authors, name) || a.name == name
  {
    var s := authors + [a];
    if NamedIn(s, name) && a.name != name {
      var j :| 0 <= j < |s| && s[j].name == name;
      assert authors[j].name == name;
    }
    if NamedIn(authors, name) {
      var j :| 0 <= j < |authors| && authors[j].name == name;
      assert s[j].name == name;
    }
    if a.name == name {
      assert s[|authors|].name == name;
    }
  }

  /** No two authors share a name. */
  predicate UniqueNames(authors: seq<Author>)
  {
    forall i, j :: 0 <= i < j < |authors| ==> authors[i].name != authors[j].name
  }

  /** Every book's author name belongs to some author. */
  predicate AuthorsKnown(c: Catalog)
  {
    forall i :: 0 <= i < |c.books| ==> NamedIn(c.authors, c.books[i].author)
  }

  /** Every id in use was issued before the counter's current value. */
  predicate IdsIssued(c: Catalog)
  {
    && (forall i :: 0 <= i < |c.authors| ==> c.authors[i].id < c.nextId)
    && (forall i :: 0 <= i < |c.books| ==> c.books[i].id < c.nextId)
  }

  /** No id is carried by two records, author or book. */
  predicate UniqueIds(c: Catalog)
  {
    && (forall i, j :: 0 <= i < j < |c.authors| ==> c.authors[i].id != c.authors[j].id)
    && (forall i, j :: 0 <= i < j < |c.books| ==> c.books[i].id != c.books[j].id)
    && (forall i, j :: 0 <= i < |c.authors| && 0 <= j < |c.books| ==> c.authors[i].id != c.books[j].id)
  }

  /** The invariants the mutations maintain. */
  predicate WellFormed(c: Catalog)
  {
    UniqueNames(c.authors) && AuthorsKnown(c) && IdsIssued(c) && UniqueIds(c)
  }

  /** The set of author names. */
  function Names(authors: seq<Author>): set<string>
  {
    set a | a in authors :: a.name
  }

  /** With distinct names there are exactly as many names as authors. */
  lemma {:induction false} UniqueNamesCount(authors: seq<Author>)
    requires UniqueNames(authors)
    ensures |Names(authors)| == |authors|
    decreases |authors|
  {
    if |authors| > 0 {
      var init := authors[..|authors| - 1];
      var last := authors[|authors| - 1];
      assert authors == init + [last];
      assert UniqueNames(init);
      UniqueNamesCount(init);
      assert Names(authors) == Names(init) + {last.name};
      assert last.name !in Names(init);
    }
  }

  /** There are never more names than authors. */
  lemma {:induction false} NamesBound(authors: seq<Author>)
    ensures |Names(authors)| <= |authors|
    decreases |authors|
  {
    if |authors| > 0 {
      var init := authors[..|authors| - 1];
      var last := authors[|authors| - 1];
      assert authors == init + [last];
      NamesBound(init);
      assert Names(authors) == Names(init) + {last.name};
    }
  }

  /** Conversely, as many names as authors means no name is shared. */
  lemma {:induction false} DistinctNamesUnique(authors: seq<Author>)
    requires |Names(authors)| == |authors|
    ensures UniqueNames(authors)
    decreases |authors|
  {
    if |authors| > 0 {
      var init := authors[..|authors| - 1];
      var last := authors[|authors| - 1];
      assert authors == init + [last];
      assert Names(authors) == Names(init) + {last.name};
      NamesBound(init);
      assert last.name !in Names(init);
      DistinctNamesUnique(init);
      forall i, j | 0 <= i < j < |authors|
        ensures authors[i].name != authors[j].name
      {
        assert authors[i] == init[i];
        if j < |init| {
          assert authors[j] == init[j];
        } else {
          assert init[i] in init;
        }
      }
    }
  }
}

=== FILE: mutations.dfy ===
/**
 The two `Mutation` resolvers. Each takes the catalog and returns the
 catalog that replaces it together with the resolver's result, just as the
 source reassigns `authors` and `books` to fresh arrays.
 */
module Mutations {
  import opened Library
  import opened Queries

  /** A catalog after a mutation, and what the mutation returned. */
  datatype Step<T> = Step(after: Catalog, result: T)

  /** `addBook(title, author, published, genres)`: when no author has the
      name, one is appended with the next counter id and no `born`; then the
      book is appended with the following id and returned. While every id in
      use is below the counter, both ids are unused by any record. */
  function AddBook(c: Catalog, args: BookArgs): (r: Step<Book>)
    ensures |r.after.books| == |c.books| + 1
    ensures r.after.books[..|c.books|] == c.books && r.after.books[|c.books|] == r.result
    ensures r.result.title == args.title && r.result.author == args.author
    ensures r.result.published == args.published && r.result.genres == args.genres
    ensures c.nextId <= r.result.id < r.after.nextId
    ensures NamedIn(c.authors, args.author) ==> r.after.authors == c.authors
    ensures !NamedIn(c.authors, args.author) ==>
      && |r.after.authors| == |c.authors| + 1
      && r.after.authors[..|c.authors|] == c.authors
      && r.after.authors[|c.authors|].name == args.author
      && r.after.authors[|c.authors|].born == None
      && c.nextId <= r.after.authors[|c.authors|].id < r.after.nextId
      && r.after.authors[|c.authors|].id != r.result.id
    ensures IdsIssued(c) ==>
      && (forall i :: 0 <= i < |c.books| ==> c.books[i].id != r.result.id)
      && (forall i :: 0 <= i < |c.authors| ==> c.authors[i].id != r.result.id)
    ensures IdsIssued(c) && !NamedIn(c.authors, args.author) ==>
      && (forall i :: 0 <= i < |c.books| ==> c.books[i].id != r.after.authors[|c.authors|].id)
      && (forall i :: 0 <= i < |c.authors| ==> c.authors[i].id != r.after.authors[|c.authors|].id)
  {
    var (authors, next) :=
      if FindAuthor(c.authors, args.author).None? then
        (c.authors + [Author(args.author, c.nextId, None)], c.nextId + 1)
      else
        (c.authors, c.nextId);
    var book := Book(args.title, args.published, args.author, args.genres, next);
    Step(Catalog(authors, c.books + [book], next + 1), book)
  }

  /** `addBook` keeps author names unique, every book's author known, and
      every id issued once. */
  lemma AddBookPreservesWellFormed(c: Catalog, args: BookArgs)
    requires WellFormed(c)
    ensures WellFormed(AddBook(c, args).after)
  {
    AddBookPreservesReferences(c, args);
    var r := AddBook(c, args);
    var d := r.after;
    assert d.books == c.books + [r.result];
    assert IdsIssued(d);
    if !NamedIn(c.authors, args.author) {
      assert d.authors == c.authors + [d.authors[|c.authors|]];
    } else {
      assert d.authors == c.authors;
    }
    assert UniqueIds(d);
  }

  /** `addBook` keeps author names unique and every book's author known,
      whatever the ids. */
  lemma AddBookPreservesReferences(c: Catalog, args: BookArgs)
    requires UniqueNames(c.authors) && AuthorsKnown(c)
    ensures UniqueNames(AddBook(c, args).after.authors) && AuthorsKnown(AddBook(c, args).after)
  {
  }

  /** What `allAuthors` reports after `addBook`, for any catalog: every
      existing row is unchanged but for one more book under the given author,
      and a newly created author appears last with no `born`. */
  lemma AddBookAllAuthors(c: Catalog, args: BookArgs)
    ensures var before := AllAuthors(c);
            var after := AllAuthors(AddBook(c, args).after);
            && (forall i :: 0 <= i < |before| ==>
                  after[i] == before[i].(bookCount := before[i].bookCount + (if before[i].name == args.author then 1 else 0)))
            && (NamedIn(c.authors, args.author) ==> |after| == |before|)
            && (!NamedIn(c.authors, args.author) ==>
                  && |after| == |before| + 1
                  && after[|before|].name == args.author
                  && after[|before|].born == None)
  {
    var r := AddBook(c, args);
    var d := r.after;
    forall name: string
      ensures |BooksBy(d.books, name)| == |BooksBy(c.books, name)| + (if name == args.author then 1 else 0)
    {
      BooksBySnoc(c.books, r.result, name);
      assert d.books == c.books + [r.result];
    }
    if !NamedIn(c.authors, args.author) {
      var before := AllAuthors(c);
      forall i | 0 <= i < |before|
        ensures AllAuthors(d)[i].name == before[i].name
      {
        assert d.authors[i] == c.authors[i];
      }
    } else {
      assert d.authors == c.authors;
    }
  }

  /** When every book's author is known, an author that `addBook` creates
      is credited with exactly the one book just added. */
  lemma AddBookNewAuthorCount(c: Catalog, args: BookArgs)
    requires AuthorsKnown(c)
    requires !NamedIn(c.authors, args.author)
    ensures AllAuthors(AddBook(c, args).after)[|c.authors|].bookCount == 1
  {
    var r := AddBook(c, args);
    BooksBySnoc(c.books, r.result, args.author);
    assert r.after.books == c.books + [r.result];
    assert BooksBy(c.books, args.author) == {} by {
      forall i | 0 <= i < |c.books|
        ensures c.books[i].author != args.author
      {
        assert NamedIn(c.authors, c.books[i].author);
      }
    }
  }

  /** `editAuthor(name, setBornTo)`: `null` when no author has the name;
      otherwise the first author of that name with `born` replaced, which
      also replaces every author of that name. */
  function EditAuthor(c: Catalog, name: string, setBornTo: int): (r: Step<Option<Author>>)
    ensures r.result.None? <==> !NamedIn(c.authors, name)
    ensures r.result.None? ==> r.after == c
    ensures r.after.books == c.books && r.after.nextId == c.nextId
    ensures |r.after.authors| == |c.authors|
    ensures r.result.Some? ==>
      exists i :: && 0 <= i < |c.authors| && c.authors[i].name == name
                  && (forall j :: 0 <= j < i ==> c.authors[j].name != name)
                  && r.result.value == c.authors[i].(born := Some(setBornTo))
    ensures forall j :: 0 <= j < |c.authors| && c.authors[j].name != name ==> r.after.authors[j] == c.authors[j]
    ensures r.result.Some? ==>
      forall j :: 0 <= j < |c.authors| && c.authors[j].name == name ==> r.after.authors[j] == r.result.value
  {
    match FindAuthor(c.authors, name)
    case None => Step(c, None)
    case Some(i) =>
      var updated := c.authors[i].(born := Some(setBornTo));
      var authors := seq(|c.authors|, j requires 0 <= j < |c.authors| =>
        if c.authors[j].name == name then updated else c.authors[j]);
      Step(c.(authors := authors), Some(updated))
  }

  /** With unique names `editAuthor` changes one field of one record: the
      `born` of the author with that name; id, name and position stay. */
  lemma EditAuthorChangesOneField(c: Catalog, name: string, setBornTo: int, i: nat)
    requires UniqueNames(c.authors)
    requires i < |c.authors| && c.authors[i].name == name
    ensures EditAuthor(c, name, setBornTo).result == Some(c.authors[i].(born := Some(setBornTo)))
    ensures EditAuthor(c, name, setBornTo).after == c.(authors := c.authors[i := c.authors[i].(born := Some(setBornTo))])
  {
  }

  /** `editAuthor` keeps the catalog well-formed. */
  lemma EditAuthorPreservesWellFormed(c: Catalog, name: string, setBornTo: int)
    requires WellFormed(c)
    ensures WellFormed(EditAuthor(c, name, setBornTo).after)
  {
  }

  /** The last `editAuthor` of a name wins: a second edit overwrites the
      first, so repeating an edit changes nothing more. */
  lemma EditAuthorLastWins(c: Catalog, name: string, y1: int, y2: int)
    ensures EditAuthor(EditAuthor(c, name, y1).after, name, y2) == EditAuthor(c, name, y2)
  {
  }

  /** `editAuthor` leaves every name and `bookCount` of `allAuthors` as it was. */
  lemma EditAuthorKeepsCounts(c: Catalog, name: string, setBornTo: int)
    ensures var before := AllAuthors(c);
            var after := AllAuthors(EditAuthor(c, name, setBornTo).after);
            && |after| == |before|
            && forall i :: 0 <= i < |before| ==>
                 after[i].bookCount == before[i].bookCount && after[i].name == before[i].name
  {
  }

  /** With unique names `editAuthor` also keeps every author's id. A shared
      name is different: `EditAuthor` gives every holder the first holder's id. */
  lemma EditAuthorKeepsIds(c: Catalog, name: string, setBornTo: int)
    requires UniqueNames(c.authors)
    ensures var after := EditAuthor(c, name, setBornTo).after;
            forall i :: 0 <= i < |c.authors| ==> after.authors[i].id == c.authors[i].id
  {
  }
}

=== FILE: queries.dfy ===
/**
 The four `Query` resolvers: `bookCount`, `authorCount`, `allBooks` and
 `allAuthors`. None of them changes the catalog.
 */
module Queries {
  import opened Library

  function BookCount(c: Catalog): nat
  {
    |c.books|
  }

  function AuthorCount(c: Catalog): nat
  {
    |c.authors|
  }

  /** `authorCount` is the number of distinct author names exactly when no name is shared. */
  lemma AuthorCountIsNameCount(c: Catalog)
    ensures AuthorCount(c) == |Names(c.authors)| <==> UniqueNames(c.authors)
  {
    if UniqueNames(c.authors) {
      UniqueNamesCount(c.authors);
    }
    if AuthorCount(c) == |Names(c.authors)| {
      DistinctNamesUnique(c.authors);
    }
  }

  /** JavaScript truthiness of an optional string argument: a missing
      argument and the empty string are both falsy. */
  predicate Truthy(arg: Option<string>)
  {
    arg.Some? && arg.value != ""
  }

  /** The filter test of `allBooks`: the author is exactly the one asked for,
      or the genre is a non-empty string found among the book's genres
      (`find` yields the genre itself, and `""` is falsy). The two tests are
      joined by OR. */
  predicate Matches(b: Book, author: Option<string>, genre: Option<string>)
  {
    author == Some(b.author) || (Truthy(genre) && genre.value in b.genres)
  }

  /** The positions of the books that pass the filter. */
  function MatchingBooks(books: seq<Book>, author: Option<string>, genre: Option<string>): set<nat>
  {
    set i: nat | i < |books| && Matches(books[i], author, genre)
  }

  /** `r` is `s` with some elements dropped and the rest kept in order. */
  predicate Subsequence(r: seq<Book>, s: seq<Book>)
    decreases |s|
  {
    if |r| == 0 then true
    else if |s| == 0 then false
    else if r[|r| - 1] == s[|s| - 1] then Subsequence(r[..|r| - 1], s[..|s| - 1])
    else Subsequence(r, s[..|s| - 1])
  }

  lemma SubsequenceExtend(r: seq<Book>, s: seq<Book>, x: Book)
    requires Subsequence(r, s)
    ensures Subsequence(r + [x], s + [x])
  {
  }

  lemma SubsequenceSkip(r: seq<Book>, s: seq<Book>, x: Book)
    requires Subsequence(r, s)
    requires x !in r
    ensures Subsequence(r, s + [x])
  {
  }

  /** Appending a book adds its position to `MatchingBooks` exactly when it passes. */
  lemma MatchingBooksSnoc(books: seq<Book>, b: Book, author: Option<string>, genre: Option<string>)
    ensures |MatchingBooks(books + [b], author, genre)|
         == |MatchingBooks(books, author, genre)| + (if Matches(b, author, genre) then 1 else 0)
  {
    var s := books + [b];
    assert forall i: nat :: i < |books| ==> s[i] == books[i];
    assert MatchingBooks(s, author, genre)
        == MatchingBooks(books, author, genre) + (if Matches(b, author, genre) then {|books|} else {});
    assert |books| !in MatchingBooks(books, author, genre);
  }

  /** `books.filter(...)`: the order-preserving subsequence of the books that
      pass the filter, one entry per passing position. */
  function Filter(books: seq<Book>, author: Option<string>, genre: Option<string>): (r: seq<Book>)
    ensures Subsequence(r, books)
    ensures |r| <= |books|
    ensures forall i :: 0 <= i < |r| ==> Matches(r[i], author, genre)
    ensures forall i :: 0 <= i < |books| && Matches(books[i], author, genre) ==> books[i] in r
    ensures |r| == |MatchingBooks(books, author, genre)|
    decreases |books|
  {
    if |books| == 0 then []
    else
      var init := books[..|books| - 1];
      var last := books[|books| - 1];
      var rest := Filter(init, author, genre);
      assert books == init + [last];
      MatchingBooksSnoc(init, last, author, genre);
      if Matches(last, author, genre) then
        SubsequenceExtend(rest, init, last);
        rest + [last]
      else
        SubsequenceSkip(rest, init, last);
        rest
  }

  /** `allBooks(author, genre)`: every book when both arguments are falsy,
      otherwise the books passing `Matches`, in insertion order. */
  function AllBooks(c: Catalog, author: Option<string>, genre: Option<string>): (r: seq<Book>)
    ensures !Truthy(author) && !Truthy(genre) ==> r == c.books
    ensures Subsequence(r, c.books) && |r| <= |c.books|
    ensures Truthy(author) || Truthy(genre) ==>
      && (forall i :: 0 <= i < |r| ==> Matches(r[i], author, genre))
      && (forall i :: 0 <= i < |c.books| && Matches(c.books[i], author, genre) ==> c.books[i] in r)
      && |r| == |MatchingBooks(c.books, author, genre)|
  {
    if !Truthy(author) && !Truthy(genre) then
      SubsequenceRefl(c.books);
      c.books
    else
      Filter(c.books, author, genre)
  }

  lemma {:induction false} SubsequenceRefl(s: seq<Book>)
    ensures Subsequence(s, s)
    decreases |s|
  {
    if |s| > 0 {
      SubsequenceRefl(s[..|s| - 1]);
    }
  }

  /** `allBooks(author: name)` with no genre returns exactly the books the
      `bookCount` of `allAuthors` counts for that name. */
  lemma AllBooksByAuthor(c: Catalog, name: string)
    requires name != ""
    ensures forall i :: 0 <= i < |AllBooks(c, Some(name), None)| ==> AllBooks(c, Some(name), None)[i].author == name
    ensures |AllBooks(c, Some(name), None)| == CountBy(c.books, name)
  {
    assert MatchingBooks(c.books, Some(name), None) == BooksBy(c.books, name);
  }

  /** `allBooks(genre: g)` with no author returns exactly the books listing `g`. */
  lemma AllBooksByGenre(c: Catalog, g: string)
    requires g != ""
    ensures forall i :: 0 <= i < |AllBooks(c, None, Some(g))| ==> g in AllBooks(c, None, Some(g))[i].genres
    ensures forall i :: 0 <= i < |c.books| && g in c.books[i].genres ==> c.books[i] in AllBooks(c, None, Some(g))
  {
  }

  /** An empty `author` is falsy only for the early return: alone it yields
      every book, but next to a genre it still keeps the books whose author
      is `""`, which leaving the author out does not. */
  lemma AllBooksEmptyAuthor(c: Catalog, g: string)
    requires g != ""
    ensures AllBooks(c, Some(""), None) == c.books
    ensures forall i :: 0 <= i < |c.books| && c.books[i].author == "" ==> c.books[i] in AllBooks(c, Some(""), Some(g))
    ensures forall i :: 0 <= i < |AllBooks(c, None, Some(g))| ==> g in AllBooks(c, None, Some(g))[i].genres
  {
  }

  /** One row of `allAuthors`: the author's fields plus the derived `bookCount`. */
  datatype AuthorView = AuthorView(name: string, id: Id, born: Option<int>, bookCount: nat)

  /** `authors.map(...)`: each author with the number of `books` carrying its name. */
  function Views(authors: seq<Author>, books: seq<Book>): (r: seq<AuthorView>)
    ensures |r| == |authors|
    ensures forall i :: 0 <= i < |r| ==>
      && r[i].name == authors[i].name
      && r[i].id == authors[i].id
      && r[i].born == authors[i].born
      && r[i].bookCount == |BooksBy(books, authors[i].name)|
    decreases |authors|
  {
    if |authors| == 0 then []
    else
      var a := authors[|authors| - 1];
      Views(authors[..|authors| - 1], books) + [AuthorView(a.name, a.id, a.born, CountBy(books, a.name))]
  }

  /** `allAuthors`: the authors in order, each with its book count. */
  function AllAuthors(c: Catalog): (r: seq<AuthorView>)
    ensures |r| == |c.authors|
    ensures forall i :: 0 <= i < |r| ==>
      && r[i].name == c.authors[i].name
      && r[i].id == c.authors[i].id
      && r[i].born == c.authors[i].born
      && r[i].bookCount == |BooksBy(c.books, c.authors[i].name)|
  {
    Views(c.authors, c.books)
  }

  /** The sum of the `bookCount`s of some rows. */
  function TotalBookCount(views: seq<AuthorView>): nat
    decreases |views|
  {
    if |views| == 0 then 0 else TotalBookCount(views[..|views| - 1]) + views[|views| - 1].bookCount
  }

  lemma {:induction false} ViewsNoBooks(authors: seq<Author>)
    ensures TotalBookCount(Views(authors, [])) == 0
    decreases |authors|
  {
    if |authors| > 0 {
      var init := authors[..|authors| - 1];
      ViewsNoBooks(init);
      assert Views(authors, [])[..|authors| - 1] == Views(init, []);
    }
  }

  /** Appending a book adds one to the total exactly when some author has its name. */
  lemma {:induction false} ViewsSnoc(authors: seq<Author>, books: seq<Book>, b: Book)
    requires UniqueNames(authors)
    ensures TotalBookCount(Views(authors, books + [b]))
         == TotalBookCount(Views(authors, books)) + (if NamedIn(authors, b.author) then 1 else 0)
    decreases |authors|
  {
    if |authors| > 0 {
      var init := authors[..|authors| - 1];
      var a := authors[|authors| - 1];
      assert UniqueNames(init);
      ViewsSnoc(init, books, b);
      assert Views(authors, books + [b])[..|authors| - 1] == Views(init, books + [b]);
      assert Views(authors, books)[..|authors| - 1] == Views(init, books);
      BooksBySnoc(books, b, a.name);
      NamedInSnoc(init, a, b.author);
      assert !(NamedIn(init, b.author) && a.name == b.author);
    }
  }

  /** Every book of a well-formed catalog is counted under exactly one author,
      so the `bookCount`s of `allAuthors` add up to `bookCount`. */
  lemma AllAuthorsTotal(c: Catalog)
    requires UniqueNames(c.authors) && AuthorsKnown(c)
    ensures TotalBookCount(AllAuthors(c)) == BookCount(c)
  {
    TotalOverPrefix(c.authors, c.books);
  }

  lemma {:induction false} TotalOverPrefix(authors: seq<Author>, books: seq<Book>)
    requires UniqueNames(authors)
    requires forall i :: 0 <= i < |books| ==> NamedIn(authors, books[i].author)
    ensures TotalBookCount(Views(authors, books)) == |books|
    decreases |books|
  {
    if |books| == 0 {
      ViewsNoBooks(authors);
    } else {
      var init := books[..|books| - 1];
      var b := books[|books| - 1];
      assert books == init + [b];
      TotalOverPrefix(authors, init);
      ViewsSnoc(authors, init, b);
    }
  }
}

=== FILE: sessions.dfy ===
/**
 Runs of mutations against one catalog: what `bookCount`, `authorCount` and
 `allAuthors` report after any sequence of `addBook` calls, and a worked
 session from an empty catalog.
 */
module Sessions {
  import opened Library
  import opened Queries
  import opened Mutations

  /** The catalog after `addBook` with each of `calls`, in order. */
  function AddBooks(c: Catalog, calls: seq<BookArgs>): Catalog
    decreases |calls|
  {
    if |calls| == 0 then c
    else AddBooks(AddBook(c, calls[0]).after, calls[1..])
  }

  /** The author names `calls` mention. */
  function CalledNames(calls: seq<BookArgs>): set<string>
  {
    set a | a in calls :: a.author
  }

  /** Each `addBook` adds exactly one book: `bookCount` grows by the number of calls. */
  lemma {:induction false} AddBooksBookCount(c: Catalog, calls: seq<BookArgs>)
    ensures BookCount(AddBooks(c, calls)) == BookCount(c) + |calls|
    ensures AddBooks(c, calls).books[..|c.books|] == c.books
    decreases |calls|
  {
    if |calls| > 0 {
      var d := AddBook(c, calls[0]).after;
      AddBooksBookCount(d, calls[1..]);
      assert AddBooks(c, calls).books[..|c.books|] == AddBooks(d, calls[1..]).books[..|d.books|][..|c.books|];
    }
  }

  /** Any run of `addBook` keeps a well-formed catalog well-formed. */
  lemma {:induction false} AddBooksWellFormed(c: Catalog, calls: seq<BookArgs>)
    requires WellFormed(c)
    ensures WellFormed(AddBooks(c, calls))
    decreases |calls|
  {
    if |calls| > 0 {
      AddBookPreservesWellFormed(c, calls[0]);
      AddBooksWellFormed(AddBook(c, calls[0]).after, calls[1..]);
    }
  }

  /** After a run of `addBook` the author names are the old ones plus every
      name the calls mention. */
  lemma {:induction false} AddBooksNames(c: Catalog, calls: seq<BookArgs>)
    ensures Names(AddBooks(c, calls).authors) == Names(c.authors) + CalledNames(calls)
    decreases |calls|
  {
    if |calls| > 0 {
      AddBookNames(c, calls[0]);
      AddBooksNames(AddBook(c, calls[0]).after, calls[1..]);
      assert calls == [calls[0]] + calls[1..];
      assert CalledNames(calls) == {calls[0].author} + CalledNames(calls[1..]);
    }
  }

  /** One `addBook` adds its author's name to the names, and no other. */
  lemma AddBookNames(c: Catalog, args: BookArgs)
    ensures Names(AddBook(c, args).after.authors) == Names(c.authors) + {args.author}
  {
  }

  /** `addBook` adds an author exactly when the name is new: from an empty
      catalog, `authorCount` is the number of distinct author names passed. */
  lemma AuthorCountFromEmpty(calls: seq<BookArgs>)
    ensures AuthorCount(AddBooks(Empty, calls)) == |CalledNames(calls)|
    ensures BookCount(AddBooks(Empty, calls)) == |calls|
  {
    assert WellFormed(Empty);
    AddBooksWellFormed(Empty, calls);
    AddBooksNames(Empty, calls);
    AddBooksBookCount(Empty, calls);
    AuthorCountIsNameCount(AddBooks(Empty, calls));
    assert Names(Empty.authors) == {};
  }

  /** A single `addBook` raises `authorCount` by one for a new name and
      leaves it for a known one. */
  lemma AddBookAuthorCount(c: Catalog, args: BookArgs)
    ensures AuthorCount(AddBook(c, args).after) == AuthorCount(c) + (if NamedIn(c.authors, args.author) then 0 else 1)
    ensures BookCount(AddBook(c, args).after) == BookCount(c) + 1
  {
  }

  const CleanCode := BookArgs("Clean Code", "Robert Martin", 2008, ["refactoring"])
  const AgilePrinciples := BookArgs("Agile Principles", "Robert Martin", 2002, ["agile", "design"])

  const Martin := Author("Robert Martin", 0, None)
  const CleanCodeBook := Book("Clean Code", 2008, "Robert Martin", ["refactoring"], 1)
  const AgileBook := Book("Agile Principles", 2002, "Robert Martin", ["agile", "design"], 2)

  /** Starting empty, the first `addBook` creates the author and the book;
      the second, by the same author, only appends its book. */
  lemma RobertMartinAdds()
    ensures AddBook(Empty, CleanCode) == Step(Catalog([Martin], [CleanCodeBook], 2), CleanCodeBook)
    ensures AddBook(Catalog([Martin], [CleanCodeBook], 2), AgilePrinciples)
         == Step(Catalog([Martin], [CleanCodeBook, AgileBook], 3), AgileBook)
  {
  }

  /** After both books: one author, two books, and `allAuthors` credits the
      author with both. */
  lemma RobertMartinCounts()
    ensures var c := Catalog([Martin], [CleanCodeBook, AgileBook], 3);
            && AuthorCount(c) == 1 && BookCount(c) == 2
            && AllAuthors(c) == [AuthorView("Robert Martin", 0, None, 2)]
  {
    var c := Catalog([Martin], [CleanCodeBook, AgileBook], 3);
    assert BooksBy(c.books, "Robert Martin") == {0, 1};
  }

  const Martin1952 := Author("Robert Martin", 0, Some(1952))

  /** Setting the birth year returns the author with it and changes nothing else. */
  lemma RobertMartinEdit()
    ensures EditAuthor(Catalog([Martin], [CleanCodeBook, AgileBook], 3), "Robert Martin", 1952)
         == Step(Catalog([Martin1952], [CleanCodeBook, AgileBook], 3), Some(Martin1952))
  {
  }

  /** The genre filter picks the one book listing "agile". */
  lemma RobertMartinGenreFilter()
    ensures AllBooks(Catalog([Martin1952], [CleanCodeBook, AgileBook], 3), None, Some("agile")) == [AgileBook]
  {
  }

  /** The author filter picks both books, in insertion order. */
  lemma RobertMartinAuthorFilter()
    ensures AllBooks(Catalog([Martin1952], [CleanCodeBook, AgileBook], 3), Some("Robert Martin"), None)
         == [CleanCodeBook, AgileBook]
  {
    var books := [CleanCodeBook, AgileBook];
    assert books[..1] == [CleanCodeBook];
    assert Filter([CleanCodeBook], Some("Robert Martin"), None) == [CleanCodeBook] by {
      assert [CleanCodeBook][..0] == [];
    }
  }
}
